=== FILE: README.md ===
# Relay hub model

A Dafny model of the WebSocket relay in `index.js`. The relay connects a robot
controller, a camera, any number of browser UIs and an inference (AI) worker.
Camera frames fan out to the UIs and the AI. AI detections fan out to the UIs
and, when AI control is on, go to the robot in a reduced form. An
`ai_control` envelope from anyone switches AI control. A UI that joins late is
sent the current connection statuses and the cached frame.

The relay keeps its state in module-level variables and handles one event at
a time on the event loop. So the model is a class, `Hub.Relay`. Its fields are
the `clients` slots (`robot`, `camera`, `ai`, the `ui` list), `latestFrame`,
`latestRobotStatus` and `aiControlEnabled`. It has one method per event:
`OnConnect`, `OnMessage` and `OnClose`. Each method appends the sends it
attempts to `outbox`. Each event takes a set `open` of the sockets whose
`readyState` is OPEN at that moment.

Every handler method is specified by pure functions, and lemmas prove the
routing properties about those functions:

- `Fanout.BroadcastSends` specifies the `broadcastToUI` loop.
- `Router.Route` specifies `handleMessage`.
- `Lifecycle.ConnectSends` and `Lifecycle.CloseSends` specify the connect and close handlers.
- `Registry.Register` and `Registry.Deregister` specify the changes to `clients`.

`Messages.Inbox(sends, x)` is the list of messages socket `x` is sent. The
routing properties are stated as equations on it.

Modules: `Json` (parsed values and JavaScript truthiness), `Messages`,
`Classifier` (`isJpegData`), `Registry`, `Fanout`, `Router`, `Lifecycle`,
`Hub`, `Scenarios` (end-to-end event sequences) and `Supervisor` (the worker
restart rule).

Modelling choices:

- A client's type is the raw `type` query string. It is `None` when the
  parameter is absent, because the close handler echoes it back as `device`.
- `aiControlEnabled` holds the JSON value copied from `enabled`. `None` means
  `undefined`. The robot gate uses JavaScript truthiness on it.
- Socket identities come from a counter. The `live` map records the client
  type that each socket's handlers captured when it connected.

In a few places the code does less than its names and comments suggest. The
model follows the code:

- A singleton close empties its slot without checking which socket closed.
  A close that checked the slot still held the closing socket would keep a
  replacement camera registered; as written, the close of a camera that was
  already replaced empties the slot
  (`Registry.SingletonCloseIgnoresIdentity`,
  `Scenarios.StaleCameraCloseEmptiesSlot`).
- `latestRobotStatus` suggests a cached robot status replayed to each new UI.
  It is set to null at index.js:33 and never written again, so no robot
  message is ever cached. Its replay to a new UI is modelled, but no event
  sequence reaches it.
- The JPEG signature test accepts only Node Buffers, and a Buffer is already
  classified as binary by the test before it.
- `frame_metadata` goes to the AI socket whenever the slot is set, without
  checking that the socket is open.
- `source` is overwritten even when the envelope already has one.
- A text message that parses to a JSON primitive or `null` is dropped, like
  unparsable text: in an ES module, stamping it throws.
- An AI detection is dropped whole when its count cannot be logged. The log
  line at index.js:146 reads `detections.length` and converts it to a string
  before any send. This throws when `detections` is undefined or null, or is
  an object whose `length` is an object with its own `toString` (or an array
  holding one).

## Model

| member | source | states |
|---|---|---|
| `Classifier.IsJpegDataIffSignaturePrefix` | index.js:82-91 | `isJpegData` holds exactly for a Buffer that starts with FF D8 FF; shorter buffers and non-Buffers fail |
| `Classifier.IsJpegData` | index.js:82-91 | no contract of its own; characterised by `Classifier.IsJpegDataIffSignaturePrefix` |
| `Registry.Without` | index.js:317-318 | the filtered UI list holds exactly the old members other than the closed socket, has no duplicates if the old list had none, and is no longer |
| `Registry.Register` | index.js:227-291 | no contract of its own; characterised by `Registry.UiCloseUndoesConnect`, `Registry.SingletonConnectCloseEmptiesSlot`, `Registry.UnknownTypeLeavesRegistry` and `Hub.ConnectKeepsConsistent` |
| `Registry.Deregister` | index.js:306-320 | no contract of its own; characterised by `Registry.SingletonCloseIgnoresIdentity`, `Registry.UiCloseUndoesConnect`, `Registry.UnknownTypeLeavesRegistry` and `Hub.CloseKeepsConsistent` |
| `Registry.SingletonCloseIgnoresIdentity` | index.js:307-316 | a robot/camera/AI close has the same effect whichever socket of that type closed, and it always leaves the slot empty |
| `Registry.SingletonConnectCloseEmptiesSlot` | index.js:227-316 | a singleton connect followed by its close leaves the slot empty; the evicted socket is not restored |
| `Registry.UiCloseUndoesConnect` | index.js:246-318 | a UI socket's close restores the registry exactly as it was before that socket connected |
| `Registry.UnknownTypeLeavesRegistry` | index.js:289-320 | a connect or close of any type other than robot, camera, ui or ai leaves the registry unchanged |
| `Fanout.BroadcastSends` | index.js:186-208 | each send of a broadcast carries the same message, goes to an open UI socket, and there are at most as many sends as UI sockets |
| `Fanout.BroadcastInbox` | index.js:186-208 | each open UI socket receives exactly one copy, every other socket receives none, and an empty UI list sends nothing |
| `Router.Stamp` | index.js:133-134 | a truthy timestamp is kept, any other is replaced by the arrival time, `source` is always the sender's type, and no other property changes |
| `Router.StampIdempotent` | index.js:133-134 | stamping again with the same sender, at any later time, changes nothing |
| `Router.AiDetection` | index.js:154-158 | the envelope forwarded to the robot has exactly the keys type, detections and timestamp, taken from the AI's envelope |
| `Router.ControlStatus` | index.js:169-172 | `control_status` has type and enabled keys only, and has `enabled` exactly when the flag is defined |
| `Router.Route` | index.js:94-183 | no contract of its own; characterised by `Router.CameraFrameRouting`, `Router.IgnoredInputChangesNothing`, `Router.RobotCommandIsDropped`, `Router.FrameMetadataRouting`, `Router.DetectionRouting` and `Router.AiControlRouting` |
| `Router.RouteEnvelope` | index.js:133-174 | no contract of its own; characterised through `Router.Route` by `Router.FrameMetadataRouting`, `Router.DetectionRouting`, `Router.AiControlRouting` and `Router.RobotCommandIsDropped` |
| `Router.CameraFrameRouting` | index.js:98-124 | a camera frame becomes `latestFrame` and reaches each open UI once and an open AI once, unchanged; the flag is unchanged |
| `Router.IgnoredInputChangesNothing` | index.js:94-182 | these inputs send nothing and change nothing: malformed text, binary from a non-camera, non-object JSON, and envelopes no branch handles |
| `Router.RobotCommandIsDropped` | index.js:129-174 | a `robot_command` envelope from any sender is relayed to nobody |
| `Router.FrameMetadataRouting` | index.js:137-142 | camera `frame_metadata` goes, stamped, to each open UI and to the AI socket whenever the slot is set, open or not |
| `Router.DetectionRouting` | index.js:145-160 | an AI detection whose count cannot be logged (detections undefined or null, or an object whose `length` throws when converted to a string) sends nothing; otherwise it goes to each open UI, and the robot gets the re-shaped envelope iff the flag is truthy and the robot is set and open |
| `Router.LogsDetectionCount` | index.js:146 | no contract of its own; characterised by `Router.DetectionRouting` and `Router.UnloggableCountDropsDetection` |
| `Router.UnloggableCountDropsDetection` | index.js:146-160 | an AI detection whose `detections` is an object with a `length` that throws when converted to a string (an object with its own `toString`, or an array holding one) sends nothing to anyone, whatever the flag, and changes neither the cached frame nor the flag |
| `Router.RobotReceivesOnlyDetections` | index.js:153-159 | the robot receives at most one message for a detection, of type `ai_detection`, holding only the detections and the stamped timestamp |
| `Router.AiControlRouting` | index.js:163-174 | `ai_control` from any sender sets the flag to its `enabled` value and sends `control_status` to the AI iff the AI is set and open |
| `Messages.ConnectionStatus` | index.js:230-234 | no contract of its own; the `connection_status` literal, repeated at index.js:239-243, 250-266, 282-286 and 324-328; characterised by `Lifecycle.UiConnectWelcome`, `Lifecycle.SingletonConnectNotifies` and `Lifecycle.CloseNotifies` |
| `Lifecycle.NotifiesOnClose` | index.js:323 | no contract of its own; characterised by `Lifecycle.CloseNotifies` |
| `Lifecycle.WelcomeMsgs` | index.js:249-276 | no contract of its own; characterised by `Lifecycle.UiConnectWelcome` |
| `Lifecycle.ConnectSends` | index.js:227-291 | no contract of its own; characterised by `Lifecycle.UiConnectWelcome`, `Lifecycle.SingletonConnectNotifies` and `Lifecycle.OtherConnectIsSilent` |
| `Lifecycle.CloseSends` | index.js:322-329 | no contract of its own; characterised by `Lifecycle.CloseNotifies` |
| `Lifecycle.UiConnectWelcome` | index.js:246-277 | a new UI is appended and receives, in order, robot/camera/AI statuses (connected iff the slot is set), the cached robot status if any, then the cached frame if any; no one else receives anything |
| `Lifecycle.SingletonConnectNotifies` | index.js:227-287 | a robot/camera/AI connect overwrites its slot and sends one `connected` status to each open UI already registered |
| `Lifecycle.OtherConnectIsSilent` | index.js:289-290 | a connect of an unknown or absent type registers nothing and sends nothing |
| `Lifecycle.CloseNotifies` | index.js:303-329 | every close of a present, non-empty, non-ui type (unknown types too) sends one `disconnected` status for it to each open UI; UI and untyped closes send nothing |
| `Hub.ConnectKeepsConsistent` | index.js:227-291 | a connect keeps the registry invariant: slots hold live sockets of their own type, and the UI list holds each live UI socket exactly once |
| `Hub.CloseKeepsConsistent` | index.js:303-320 | a close of a live socket keeps the same registry invariant |
| `Hub.Relay.constructor` | index.js:24-36 | the relay starts with empty slots and UI list, no cached frame or robot status, and AI control false |
| `Hub.Relay.BroadcastToUI` | index.js:186-214 | the loop appends exactly `BroadcastSends` of the UI list to the outbox |
| `Hub.Relay.OnConnect` | index.js:217-291 | a new socket gets a fresh identity, the registry becomes `Register` of the old one, the outbox grows by `ConnectSends`, and the invariant is kept |
| `Hub.Relay.OnClose` | index.js:303-330 | the socket stops being live, the registry becomes `Deregister` of the old one, the outbox grows by `CloseSends`, and the invariant is kept |
| `Hub.Relay.OnMessage` | index.js:94-183 | the outbox, `latestFrame` and `aiControlEnabled` change exactly as `Route` says for the sender's captured type; the registry is unchanged |
| `Hub.Relay.HandleEnvelope` | index.js:133-174 | the three branches on a stamped envelope append and set exactly what `RouteEnvelope` says |
| `Scenarios.LateUiCatchesUp` | index.js:246-277 | camera connects and sends a frame, a UI joins, the camera sends again: the UI receives three statuses (only the camera connected), the first frame, then the second |
| `Scenarios.AiControlGatesRobot` | index.js:145-174 | after `ai_control` with `enabled`, an AI detection carrying an extra property reaches the robot as exactly one three-key `ai_detection` iff enabled |
| `Scenarios.StaleCameraCloseEmptiesSlot` | index.js:303-316 | when a replaced camera closes, the slot is emptied although the replacement is still connected |
| `Supervisor.RestartAfter` | index.js:67-76 | a worker exit schedules a restart after 5000 ms iff the exit code is not exactly 0 (a null code restarts) |
| `Supervisor.Worker.constructor` | index.js:39 | the worker starts with no process held |
| `Supervisor.Worker.Start` | index.js:41-54 | with the script missing the handle is unchanged; otherwise a process is held |
| `Supervisor.Worker.OnExit` | index.js:67-76 | the handle is dropped and the returned restart delay is `RestartAfter` of the code |

## Left out

- Runtime type sniffing (index.js:98-104) is not modelled. This covers `instanceof Buffer`/`ArrayBuffer`, the `toString()` test and the ArrayBuffer-to-Buffer conversion. Inbound messages arrive already tagged `Binary`, `Text` or `Malformed`. Which runtime type a text frame arrives as depends on the `ws` library, which is not part of this model.
- JSON parsing and `JSON.stringify` are foreign code. Envelopes are parsed values, and an outbound object stands for its serialisation. Property order and numeric precision are not modelled.
- Send callbacks, `sentCount` and all console logging (index.js:193-213) are left out. Sends are recorded as attempts. Delivery, including a send on a socket that is not open, is up to the `ws` library.
- A `send` that throws synchronously is not modelled. `broadcastToUI` catches such throws per socket, so the loop goes on.
- Worker process I/O is left out: `spawn`, stdout/stderr forwarding, `fs.existsSync`, and the timer. Whether the script exists is a parameter. The restart timer is returned as a delay, and its firing is a later `Start` call.
- Server plumbing is left out: Express static serving, `server.listen` and the bind-failure exit (index.js:14-21, 334-355).
- Real concurrency and timing are left out. Each event is one atomic method call, and the arrival time is a parameter.
- `Hub.Relay.OnClose`: requires that the socket is live. The transport fires `close` once per socket, after its connect.
- `Hub.Relay.OnMessage`: requires that the socket is live. Messages are not delivered after `close`.
- public/page.js and ai/ai_vision.py are not part of this model. They are clients of the relay's wire protocol.

=== FILE: classifier.dfy ===
/**
 * The JPEG start-of-image test the relay applies to inbound messages.
 */
module Classifier {
  import opened Messages

  /** A JavaScript value handed to `isJpegData`: a Node `Buffer` with its bytes,
      or anything else (a string, an ArrayBuffer, ...). */
  datatype Raw = Buffer(bytes: seq<byte>) | NonBuffer

  /** The JPEG start-of-image marker followed by the first byte of the next marker. */
  const JpegSignature: seq<byte> := [0xFF, 0xD8, 0xFF]

  /** `isJpegData`: a Buffer of at least three bytes whose first three are FF D8 FF. */
  predicate IsJpegData(data: Raw)
  {
    match data
    case Buffer(b) => |b| >= 3 && b[0] == 0xFF && b[1] == 0xD8 && b[2] == 0xFF
    case NonBuffer => false
  }

  /** The test holds exactly of Buffers that begin with the signature; anything
      shorter, and anything that is not a Buffer, fails it. */
  lemma IsJpegDataIffSignaturePrefix(data: Raw)
    ensures IsJpegData(data) <==> data.Buffer? && JpegSignature <= data.bytes
  {
  }
}

=== FILE: fanout.dfy ===
/**
 * `broadcastToUI`: the fan-out of one message to the UI sockets.
 */
module Fanout {
  import opened Messages

  /** The sends one broadcast of `m` attempts, in list order: one per UI socket
      that is open, none for the others. */
  function BroadcastSends(ui: seq<ConnId>, open: set<ConnId>, m: Msg): (r: seq<Send>)
    ensures |r| <= |ui|
    ensures forall s :: s in r ==> s.msg == m && s.dest in ui && s.dest in open
  {
    if ui == [] then []
    else
      var last := ui[|ui| - 1];
      BroadcastSends(ui[..|ui| - 1], open, m) + (if last in open then [Send(last, m)] else [])
  }

  /** Every open UI socket receives exactly one copy of the message; a closed or
      unregistered socket receives none. With no UI sockets nothing is sent. */
  lemma {:induction false} BroadcastInbox(ui: seq<ConnId>, open: set<ConnId>, m: Msg, d: ConnId)
    requires NoDup(ui)
    ensures Inbox(BroadcastSends(ui, open, m), d) == if d in ui && d in open then [m] else []
  {
    if ui != [] {
      var init, last := ui[..|ui| - 1], ui[|ui| - 1];
      assert ui == init + [last];
      assert NoDup(init);
      assert last !in init;
      BroadcastInbox(init, open, m, d);
      var tail := if last in open then [Send(last, m)] else [];
      InboxConcat(BroadcastSends(init, open, m), tail, d);
      if last in open {
        InboxOne(Send(last, m), d);
      }
    }
  }
}

=== FILE: hub.dfy ===
/**
 * The relay's module-level state and its three event handlers. Every event
 * runs to completion on the single event loop, so each handler is one method
 * call. `open` is the set of sockets whose `readyState` is OPEN when the event runs.
 */
module Hub {
  import opened Wrappers
  import opened Json
  import opened Messages
  import opened Registry
  import opened Fanout
  import opened Router
  import opened Lifecycle

  /** `slot`, when set, holds a live socket of type `t`. */
  ghost predicate Holds(slot: Option<ConnId>, live: map<ConnId, ClientType>, t: string)
  {
    slot.Some? ==> slot.value in live && live[slot.value] == Some(t)
  }

  /** The registry invariant: every identity handed out is below `nextId`; each
      slot holds a live socket of its own type; the UI list holds, once each,
      exactly the live UI sockets. */
  ghost predicate Consistent(reg: Clients, live: map<ConnId, ClientType>, nextId: ConnId)
  {
    && (forall k :: k in live ==> k < nextId)
    && Holds(reg.robot, live, Robot) && Holds(reg.camera, live, Camera) && Holds(reg.ai, live, Ai)
    && NoDup(reg.ui)
    && (forall k :: k in reg.ui ==> k in live && live[k] == Some(Ui))
    && (forall k :: k in live && live[k] == Some(Ui) ==> k in reg.ui)
  }

  /** Registering a new socket under the next identity keeps the registry consistent. */
  lemma ConnectKeepsConsistent(reg: Clients, live: map<ConnId, ClientType>, nextId: ConnId, t: ClientType)
    requires Consistent(reg, live, nextId)
    ensures nextId !in live
    ensures Consistent(Register(reg, t, nextId), live[nextId := t], nextId + 1)
  {
    if t == Some(Ui) {
      var r := Register(reg, t, nextId);
      forall i, j | 0 <= i < j < |r.ui| ensures r.ui[i] != r.ui[j] {
        if j == |reg.ui| {
          assert r.ui[i] in reg.ui;
        }
      }
    }
  }

  /** Deregistering a live socket on its close keeps the registry consistent. */
  lemma CloseKeepsConsistent(reg: Clients, live: map<ConnId, ClientType>, nextId: ConnId, c: ConnId)
    requires Consistent(reg, live, nextId) && c in live
    ensures Consistent(Deregister(reg, live[c], c), live - {c}, nextId)
  {
  }

  class Relay {
    // `clients`
    var robot: Option<ConnId>
    var camera: Option<ConnId>
    var ui: seq<ConnId>
    var ai: Option<ConnId>
    // the state cache and the AI control flag (None: `undefined`)
    var latestFrame: Option<seq<byte>>
    var latestRobotStatus: Option<Object>
    var aiControlEnabled: Option<Value>
    /** The sockets whose close has not yet fired, with the client type their
        handlers captured at connect time. */
    var live: map<ConnId, ClientType>
    /** The identity the next accepted socket gets. */
    var nextId: ConnId
    /** Every send attempted so far, in order. */
    var outbox: seq<Send>

    function View(): Clients
      reads this
    {
      Clients(robot, camera, ui, ai)
    }

    /** The registry is consistent with the live sockets. */
    ghost predicate Valid()
      reads this
    {
      Consistent(View(), live, nextId)
    }

    constructor ()
      ensures Valid()
      ensures View() == NoClients && live == map[] && outbox == []
      ensures latestFrame == None && latestRobotStatus == None && aiControlEnabled == Some(Bool(false))
    {
      robot, camera, ui, ai := None, None, [], None;
      latestFrame, latestRobotStatus, aiControlEnabled := None, None, Some(Bool(false));
      live, nextId, outbox := map[], 0, [];
    }

    /** `broadcastToUI`: attempt one send of `m` to each open UI socket, in list order. */
    method BroadcastToUI(m: Msg, open: set<ConnId>)
      modifies this`outbox
      ensures outbox == old(outbox) + BroadcastSends(ui, open, m)
    {
      if |ui| == 0 {
        return;
      }
      var i := 0;
      while i < |ui|
        invariant 0 <= i <= |ui|
        invariant outbox == old(outbox) + BroadcastSends(ui[..i], open, m)
      {
        assert ui[..i + 1][..i] == ui[..i];
        if ui[i] in open {
          outbox := outbox + [Send(ui[i], m)];
        }
        i := i + 1;
      }
      assert ui[..|ui|] == ui;
    }

    /** The connection handler for a new socket of declared type `t`. */
    method OnConnect(t: ClientType, open: set<ConnId>) returns (c: ConnId)
      requires Valid()
      modifies this
      ensures Valid()
      ensures c == old(nextId) && c !in old(live)
      ensures live == old(live)[c := t] && nextId == old(nextId) + 1
      ensures View() == Register(old(View()), t, c)
      ensures outbox == old(outbox) + ConnectSends(old(View()), t, c, open, latestRobotStatus, latestFrame)
      ensures latestFrame == old(latestFrame) && aiControlEnabled == old(aiControlEnabled)
      ensures latestRobotStatus == old(latestRobotStatus)
    {
      ghost var before := View();
      ConnectKeepsConsistent(before, live, nextId, t);
      c := nextId;
      nextId := nextId + 1;
      live := live[c := t];
      if t == Some(Camera) {
        camera := Some(c);
        BroadcastToUI(JsonText(ConnectionStatus(Camera, true)), open);
      } else if t == Some(Robot) {
        robot := Some(c);
        BroadcastToUI(JsonText(ConnectionStatus(Robot, true)), open);
      } else if t == Some(Ai) {
        ai := Some(c);
        BroadcastToUI(JsonText(ConnectionStatus(Ai, true)), open);
      } else if t == Some(Ui) {
        var welcome := WelcomeMsgs(View(), latestRobotStatus, latestFrame);
        ui := ui + [c];
        outbox := outbox + SendsTo(c, welcome);
      } else {
        assert ConnectSends(before, t, c, open, latestRobotStatus, latestFrame) == [];
      }
      assert View() == Register(before, t, c);
    }

    /** The close handler of socket `c`, which fires once, after its connect. */
    method OnClose(c: ConnId, open: set<ConnId>)
      requires Valid() && c in live
      modifies this
      ensures Valid()
      ensures live == old(live) - {c} && nextId == old(nextId)
      ensures View() == Deregister(old(View()), old(live)[c], c)
      ensures outbox == old(outbox) + CloseSends(View(), old(live)[c], open)
      ensures latestFrame == old(latestFrame) && aiControlEnabled == old(aiControlEnabled)
      ensures latestRobotStatus == old(latestRobotStatus)
    {
      var t := live[c];
      CloseKeepsConsistent(View(), live, nextId, c);
      live := live - {c};
      if t == Some(Camera) {
        camera := None;
      } else if t == Some(Robot) {
        robot := None;
      } else if t == Some(Ai) {
        ai := None;
      } else if t == Some(Ui) {
        ui := Without(ui, c);
      }
      if NotifiesOnClose(t) {
        BroadcastToUI(JsonText(ConnectionStatus(t.value, false)), open);
      }
    }

    /** The message handler of socket `c` for one inbound payload arriving at time `now`. */
    method OnMessage(c: ConnId, p: Payload, now: string, open: set<ConnId>)
      requires Valid() && c in live
      modifies this`outbox, this`latestFrame, this`aiControlEnabled
      ensures Valid()
      ensures var e := Route(View(), old(latestFrame), old(aiControlEnabled), live[c], p, now, open);
        && outbox == old(outbox) + e.sends
        && latestFrame == e.latestFrame
        && aiControlEnabled == e.aiControl
    {
      var senderType := live[c];
      match p {
        case Malformed =>
        case Binary(bytes) =>
          if senderType == Some(Camera) {
            latestFrame := Some(bytes);
            BroadcastToUI(Frame(bytes), open);
            if ai.Some? && ai.value in open {
              outbox := outbox + [Send(ai.value, Frame(bytes))];
            }
          }
        case Text(v) =>
          if v.Obj? {
            var data := Stamp(v.fields, senderType, now);
            HandleEnvelope(senderType, data, open);
          }
      }
    }

    /** The part of the message handler after parsing and stamping. */
    method HandleEnvelope(senderType: ClientType, data: Object, open: set<ConnId>)
      requires "timestamp" in data
      modifies this`outbox, this`aiControlEnabled
      ensures var e := RouteEnvelope(View(), latestFrame, old(aiControlEnabled), senderType, data, open);
        && outbox == old(outbox) + e.sends
        && aiControlEnabled == e.aiControl
    {
      if senderType == Some(Camera) && TypeIs(data, "frame_metadata") {
        BroadcastToUI(JsonText(data), open);
        if ai.Some? {
          outbox := outbox + [Send(ai.value, JsonText(data))];
        }
      }
      if senderType == Some(Ai) && TypeIs(data, "detection") {
        if !LogsDetectionCount(data) {
          // logging `data.detections.length` throws; the handler's catch drops the message
          return;
        }
        BroadcastToUI(JsonText(data), open);
        if Truthy(aiControlEnabled) && robot.Some? && robot.value in open {
          outbox := outbox + [Send(robot.value, JsonText(AiDetection(data)))];
        }
      }
      if TypeIs(data, "ai_control") {
        aiControlEnabled := Get(data, "enabled");
        if ai.Some? && ai.value in open {
          outbox := outbox + [Send(ai.value, JsonText(ControlStatus(aiControlEnabled)))];
        }
      }
    }
  }
}

=== FILE: json.dfy ===
/**
 * Decoded JSON values, as `JSON.parse` produces them, and the JavaScript
 * truthiness the relay applies to their properties.
 */
module Json {
  import opened Wrappers

  /** A value produced by `JSON.parse`. Numbers are reals: the binary64 rounding
      of JavaScript numbers plays no part in the relay's decisions. */
  datatype Value =
    | Null
    | Bool(b: bool)
    | Num(n: real)
    | Str(s: string)
    | Arr(items: seq<Value>)
    | Obj(fields: Object)

  /** A JSON object: property names and their values (property order is not modelled). */
  type Object = map<string, Value>

  /** Reading property `key`; None stands for `undefined`. */
  function Get(o: Object, key: string): Option<Value>
  {
    if key in o then Some(o[key]) else None
  }

  /** JavaScript truthiness of a property read (`undefined` is None). */
  predicate Truthy(v: Option<Value>)
  {
    match v
    case None => false
    case Some(x) =>
      match x
      case Null => false
      case Bool(b) => b
      case Num(n) => n != 0.0
      case Str(s) => s != ""
      case Arr(_) => true
      case Obj(_) => true
  }

  /** Converting `v` to a string, as a template literal does, throws a
      TypeError. An object whose own `toString` property is present cannot be
      converted: that property is not callable, and the inherited `valueOf`
      returns the object itself. An array is converted by `join`, which throws
      when one of its items does. Every other value converts. */
  predicate ToStringThrows(v: Value)
  {
    match v
    case Obj(fields) => "toString" in fields
    case Arr(items) => exists i :: 0 <= i < |items| && ToStringThrows(items[i])
    case _ => false
  }

  /** `o.type === t` */
  predicate TypeIs(o: Object, t: string)
  {
    Get(o, "type") == Some(Str(t))
  }
}

=== FILE: lifecycle.dfy ===
/**
 * The connect and close handlers' sends: `connection_status` pushes to the UI
 * sockets, and the catch-up sequence a newly connected UI socket receives.
 */
module Lifecycle {
  import opened Wrappers
  import opened Json
  import opened Messages
  import opened Registry
  import opened Fanout

  /** One send of each message to `c`, in order. */
  function SendsTo(c: ConnId, ms: seq<Msg>): (r: seq<Send>)
    ensures |r| == |ms|
  {
    if ms == [] then [] else SendsTo(c, ms[..|ms| - 1]) + [Send(c, ms[|ms| - 1])]
  }

  lemma {:induction false} SendsToInbox(c: ConnId, ms: seq<Msg>, x: ConnId)
    ensures Inbox(SendsTo(c, ms), x) == if x == c then ms else []
  {
    if ms != [] {
      SendsToInbox(c, ms[..|ms| - 1], x);
      InboxConcat(SendsTo(c, ms[..|ms| - 1]), [Send(c, ms[|ms| - 1])], x);
      InboxOne(Send(c, ms[|ms| - 1]), x);
      assert ms[..|ms| - 1] + [ms[|ms| - 1]] == ms;
    }
  }

  /** What a new UI socket is sent: the status of the robot, camera and AI
      slots, then the cached robot status if there is one, then the cached frame
      if there is one. */
  function WelcomeMsgs(reg: Clients, robotStatus: Option<Object>, frame: Option<seq<byte>>): seq<Msg>
  {
    [JsonText(ConnectionStatus(Robot, reg.robot.Some?)),
     JsonText(ConnectionStatus(Camera, reg.camera.Some?)),
     JsonText(ConnectionStatus(Ai, reg.ai.Some?))]
    + (if robotStatus.Some? then [JsonText(robotStatus.value)] else [])
    + (if frame.Some? then [Frame(frame.value)] else [])
  }

  /** The sends of the connect handler for a new socket `c` of type `t`, given
      the registry as it was before `c` registered. */
  function ConnectSends(reg: Clients, t: ClientType, c: ConnId, open: set<ConnId>,
                        robotStatus: Option<Object>, frame: Option<seq<byte>>): seq<Send>
  {
    if IsSingleton(t) then BroadcastSends(reg.ui, open, JsonText(ConnectionStatus(t.value, true)))
    else if t == Some(Ui) then SendsTo(c, WelcomeMsgs(reg, robotStatus, frame))
    else []
  }

  /** `clientType && clientType !== 'ui'`: a present, non-empty type other than `ui`. */
  predicate NotifiesOnClose(t: ClientType)
  {
    t.Some? && t.value != "" && t.value != Ui
  }

  /** The sends of the close handler, given the registry after deregistration. */
  function CloseSends(reg: Clients, t: ClientType, open: set<ConnId>): seq<Send>
  {
    if NotifiesOnClose(t) then BroadcastSends(reg.ui, open, JsonText(ConnectionStatus(t.value, false)))
    else []
  }

  /** A new UI socket is appended to the list and receives, in order, the three
      slot statuses (`connected` exactly when the slot is set), the cached robot
      status if any and the cached frame if any; no other socket receives anything. */
  lemma UiConnectWelcome(reg: Clients, c: ConnId, open: set<ConnId>,
                         robotStatus: Option<Object>, frame: Option<seq<byte>>, x: ConnId)
    ensures Register(reg, Some(Ui), c).ui == reg.ui + [c]
    ensures var inbox := Inbox(ConnectSends(reg, Some(Ui), c, open, robotStatus, frame), x);
      && (x != c ==> inbox == [])
      && (x == c ==>
            && |inbox| == 3 + (if robotStatus.Some? then 1 else 0) + (if frame.Some? then 1 else 0)
            && inbox[0] == JsonText(ConnectionStatus(Robot, reg.robot.Some?))
            && inbox[1] == JsonText(ConnectionStatus(Camera, reg.camera.Some?))
            && inbox[2] == JsonText(ConnectionStatus(Ai, reg.ai.Some?))
            && (robotStatus.Some? ==> inbox[3] == JsonText(robotStatus.value))
            && (frame.Some? ==> inbox[|inbox| - 1] == Frame(frame.value)))
  {
    assert !IsSingleton(Some(Ui));
    SendsToInbox(c, WelcomeMsgs(reg, robotStatus, frame), x);
  }

  /** A robot, camera or AI connect overwrites its slot and pushes one
      `connected` status for that device to each open UI socket already registered. */
  lemma SingletonConnectNotifies(reg: Clients, t: ClientType, c: ConnId, open: set<ConnId>,
                                 robotStatus: Option<Object>, frame: Option<seq<byte>>, x: ConnId)
    requires IsSingleton(t) && NoDup(reg.ui)
    ensures var r := Register(reg, t, c);
      && r.ui == reg.ui
      && (t == Some(Robot) ==> r.robot == Some(c))
      && (t == Some(Camera) ==> r.camera == Some(c))
      && (t == Some(Ai) ==> r.ai == Some(c))
    ensures Inbox(ConnectSends(reg, t, c, open, robotStatus, frame), x)
            == if x in reg.ui && x in open then [JsonText(ConnectionStatus(t.value, true))] else []
  {
    BroadcastInbox(reg.ui, open, JsonText(ConnectionStatus(t.value, true)), x);
  }

  /** A socket of any other type (unknown or absent) registers nothing and sends nothing. */
  lemma OtherConnectIsSilent(reg: Clients, t: ClientType, c: ConnId, open: set<ConnId>,
                             robotStatus: Option<Object>, frame: Option<seq<byte>>)
    requires !IsSingleton(t) && t != Some(Ui)
    ensures Register(reg, t, c) == reg
    ensures ConnectSends(reg, t, c, open, robotStatus, frame) == []
  {
  }

  /** Every close whose type is present, non-empty and not `ui` (unknown types
      included) pushes one `disconnected` status for that type to each open UI
      socket still registered; a UI close or an untyped close pushes nothing. */
  lemma CloseNotifies(reg: Clients, t: ClientType, c: ConnId, open: set<ConnId>, x: ConnId)
    requires NoDup(reg.ui)
    ensures var r := Deregister(reg, t, c);
      && (t != Some(Ui) ==> r.ui == reg.ui)
      && (t == Some(Ui) ==> (forall y :: y in r.ui <==> y in reg.ui && y != c))
      && Inbox(CloseSends(r, t, open), x)
         == if NotifiesOnClose(t) && x in r.ui && x in open
            then [JsonText(ConnectionStatus(t.value, false))] else []
  {
    var r := Deregister(reg, t, c);
    if NotifiesOnClose(t) {
      BroadcastInbox(r.ui, open, JsonText(ConnectionStatus(t.value, false)), x);
    }
  }
}

=== FILE: messages.dfy ===
/**
 * What travels over the sockets: connection identities, the client type a
 * socket declared, inbound payloads as tagged at the transport boundary, and
 * the sends the relay attempts.
 */
module Messages {
  import opened Wrappers
  import opened Json

  newtype byte = x: int | 0 <= x < 256

  /** Identity of one socket object. */
  type ConnId = nat

  /** The `type` query parameter of the upgrade request; None when it is absent (`null`). */
  type ClientType = Option<string>

  const Robot: string := "robot"
  const Camera: string := "camera"
  const Ui: string := "ui"
  const Ai: string := "ai"

  /** What one `send` call is given: a Buffer, passed on verbatim, or an object,
      passed as its `JSON.stringify` text. */
  datatype Msg = Frame(bytes: seq<byte>) | JsonText(obj: Object)

  /** One attempted `send` to socket `dest`. */
  datatype Send = Send(dest: ConnId, msg: Msg)

  /** An inbound message: binary bytes, text that `JSON.parse` accepted, or text it rejected. */
  datatype Payload = Binary(bytes: seq<byte>) | Text(value: Value) | Malformed

  /** The messages sent to `dest`, in the order they were sent. */
  function Inbox(sends: seq<Send>, dest: ConnId): seq<Msg>
  {
    if sends == [] then []
    else
      var last := sends[|sends| - 1];
      Inbox(sends[..|sends| - 1], dest) + (if last.dest == dest then [last.msg] else [])
  }

  lemma {:induction false} InboxConcat(a: seq<Send>, b: seq<Send>, dest: ConnId)
    ensures Inbox(a + b, dest) == Inbox(a, dest) + Inbox(b, dest)
  {
    if b == [] {
      assert a + b == a;
    } else {
      assert (a + b)[..|a + b| - 1] == a + b[..|b| - 1];
      InboxConcat(a, b[..|b| - 1], dest);
    }
  }

  lemma InboxOne(s: Send, dest: ConnId)
    ensures Inbox([s], dest) == if s.dest == dest then [s.msg] else []
  {
    assert [s][..0] == [];
  }

  /** No socket occurs twice. */
  predicate NoDup(s: seq<ConnId>)
  {
    forall i, j :: 0 <= i < j < |s| ==> s[i] != s[j]
  }

  /** The `connection_status` envelope pushed to UI clients about `device`. */
  function ConnectionStatus(device: string, connected: bool): Object
  {
    map["type" := Str("connection_status"),
        "device" := Str(device),
        "status" := Str(if connected then "connected" else "disconnected")]
  }
}

=== FILE: registry.dfy ===
/**
 * The connection registry: one slot per singleton client type and the list of
 * UI sockets, with the updates the connect and close handlers make to it.
 */
module Registry {
  import opened Wrappers
  import opened Messages

  /** The module-level `clients` object. */
  datatype Clients = Clients(robot: Option<ConnId>, camera: Option<ConnId>, ui: seq<ConnId>, ai: Option<ConnId>)

  const NoClients := Clients(None, None, [], None)

  /** `s.filter(client => client !== c)` */
  function Without(s: seq<ConnId>, c: ConnId): (r: seq<ConnId>)
    ensures forall x :: x in r <==> x in s && x != c
    ensures |r| <= |s|
    ensures NoDup(s) ==> NoDup(r)
  {
    if s == [] then []
    else
      var rest := Without(s[1..], c);
      assert NoDup(s) ==> NoDup(s[1..]) && s[0] !in s[1..];
      (if s[0] == c then [] else [s[0]]) + rest
  }

  /** The registration a new socket `c` of type `t` makes: a singleton type
      overwrites its slot, `ui` appends, any other type registers nothing. */
  function Register(reg: Clients, t: ClientType, c: ConnId): Clients
  {
    if t == Some(Camera) then reg.(camera := Some(c))
    else if t == Some(Robot) then reg.(robot := Some(c))
    else if t == Some(Ui) then reg.(ui := reg.ui + [c])
    else if t == Some(Ai) then reg.(ai := Some(c))
    else reg
  }

  /** The deregistration on the close of socket `c` of type `t`: a singleton slot
      is emptied whatever it holds, a UI socket is filtered out of the list. */
  function Deregister(reg: Clients, t: ClientType, c: ConnId): Clients
  {
    if t == Some(Camera) then reg.(camera := None)
    else if t == Some(Robot) then reg.(robot := None)
    else if t == Some(Ai) then reg.(ai := None)
    else if t == Some(Ui) then reg.(ui := Without(reg.ui, c))
    else reg
  }

  predicate IsSingleton(t: ClientType)
  {
    t == Some(Robot) || t == Some(Camera) || t == Some(Ai)
  }

  /** A singleton close does not look at which socket closed: the close of a
      socket that has since been replaced empties the slot just as the close of
      its current occupant does. */
  lemma SingletonCloseIgnoresIdentity(reg: Clients, t: ClientType, closing: ConnId, occupant: ConnId)
    requires IsSingleton(t)
    ensures Deregister(reg, t, closing) == Deregister(reg, t, occupant)
    ensures var r := Deregister(reg, t, closing);
      (t == Some(Robot) ==> r.robot == None) &&
      (t == Some(Camera) ==> r.camera == None) &&
      (t == Some(Ai) ==> r.ai == None)
  {
  }

  /** Connecting a singleton and closing it again leaves the slot empty: the
      socket it evicted is not restored. Every other part of the registry is as before. */
  lemma SingletonConnectCloseEmptiesSlot(reg: Clients, t: ClientType, c: ConnId)
    requires IsSingleton(t)
    ensures Deregister(Register(reg, t, c), t, c) == Deregister(reg, t, c)
  {
  }

  /** A UI socket's close undoes its connect exactly. */
  lemma {:induction false} UiCloseUndoesConnect(reg: Clients, c: ConnId)
    requires c !in reg.ui
    ensures Deregister(Register(reg, Some(Ui), c), Some(Ui), c) == reg
  {
    WithoutAppended(reg.ui, c);
  }

  lemma {:induction false} WithoutAppended(s: seq<ConnId>, c: ConnId)
    requires c !in s
    ensures Without(s + [c], c) == s
  {
    if s == [] {
      assert Without([c][1..], c) == [];
    } else {
      assert (s + [c])[1..] == s[1..] + [c];
      WithoutAppended(s[1..], c);
      assert [s[0]] + s[1..] == s;
    }
  }

  /** Other client types are never registered and never deregistered. */
  lemma UnknownTypeLeavesRegistry(reg: Clients, t: ClientType, c: ConnId)
    requires !IsSingleton(t) && t != Some(Ui)
    ensures Register(reg, t, c) == reg && Deregister(reg, t, c) == reg
  {
  }
}

=== FILE: router.dfy ===
/**
 * `handleMessage`: how one inbound message, given the sender's client type,
 * changes the cached frame and the AI control flag and which sends it causes.
 */
module Router {
  import opened Wrappers
  import opened Json
  import opened Messages
  import opened Registry
  import opened Fanout

  /** The value `data.source` is set to: the sender's client type, or null. */
  function SourceValue(sender: ClientType): Value
  {
    match sender
    case None => Null
    case Some(t) => Str(t)
  }

  /** The server-side stamping of a parsed envelope: a truthy `timestamp` is
      kept and any other is replaced by the arrival time `now`; `source` is
      always overwritten with the sender's type; no other property changes. */
  function Stamp(o: Object, sender: ClientType, now: string): (d: Object)
    ensures d.Keys == o.Keys + {"timestamp", "source"}
    ensures d["timestamp"] == if Truthy(Get(o, "timestamp")) then o["timestamp"] else Str(now)
    ensures d["source"] == SourceValue(sender)
    ensures forall k :: k in o && k != "timestamp" && k != "source" ==> d[k] == o[k]
  {
    var ts := if Truthy(Get(o, "timestamp")) then o["timestamp"] else Str(now);
    o["timestamp" := ts]["source" := SourceValue(sender)]
  }

  /** An envelope that has been through the relay once keeps its timestamp and
      source when stamped again with the same sender, whatever the new arrival time. */
  lemma StampIdempotent(o: Object, sender: ClientType, now: string, later: string)
    requires now != ""
    ensures Stamp(Stamp(o, sender, now), sender, later) == Stamp(o, sender, now)
  {
  }

  /** The detection count can be logged: reading `data.detections.length` and
      converting it to a string does not throw. Reading it throws when
      `detections` is undefined or null. A string or an array has a numeric
      length, and a number or a boolean an undefined one, and these convert.
      An object's length is its own `length` property, undefined when absent. */
  predicate LogsDetectionCount(d: Object)
  {
    match Get(d, "detections")
    case None => false
    case Some(v) =>
      match v
      case Null => false
      case Obj(fields) => "length" !in fields || !ToStringThrows(fields["length"])
      case _ => true
  }

  /** The re-shaped envelope forwarded to the robot: type, detections and
      timestamp, and no other property of the AI's envelope. */
  function AiDetection(d: Object): (r: Object)
    requires "detections" in d && "timestamp" in d
    ensures r.Keys == {"type", "detections", "timestamp"}
    ensures r["type"] == Str("ai_detection")
    ensures r["detections"] == d["detections"] && r["timestamp"] == d["timestamp"]
  {
    map["type" := Str("ai_detection"), "detections" := d["detections"], "timestamp" := d["timestamp"]]
  }

  /** The `control_status` envelope sent to the AI. `JSON.stringify` drops an
      `enabled` that is undefined, so the property is present exactly when the flag is defined. */
  function ControlStatus(flag: Option<Value>): (r: Object)
    ensures "type" in r && r.Keys <= {"type", "enabled"} && r["type"] == Str("control_status")
    ensures "enabled" in r <==> flag.Some?
    ensures flag.Some? ==> r["enabled"] == flag.value
  {
    var base := map["type" := Str("control_status")];
    match flag
    case None => base
    case Some(v) => base["enabled" := v]
  }

  /** The outcome of one message: the sends, the new `latestFrame` and the new `aiControlEnabled`. */
  datatype Effect = Effect(sends: seq<Send>, latestFrame: Option<seq<byte>>, aiControl: Option<Value>)

  /** A send to `slot` when it is set and its socket is open. */
  function SendIfOpen(slot: Option<ConnId>, open: set<ConnId>, m: Msg): seq<Send>
  {
    if slot.Some? && slot.value in open then [Send(slot.value, m)] else []
  }

  /** The routing decision for one inbound message from a sender of type `sender`.
      `flag` is `aiControlEnabled` (None: undefined). */
  function Route(reg: Clients, frame: Option<seq<byte>>, flag: Option<Value>,
                 sender: ClientType, p: Payload, now: string, open: set<ConnId>): Effect
  {
    match p
    case Malformed => Effect([], frame, flag)
    case Binary(b) =>
      if sender == Some(Camera) then
        Effect(BroadcastSends(reg.ui, open, Frame(b)) + SendIfOpen(reg.ai, open, Frame(b)), Some(b), flag)
      else
        Effect([], frame, flag)
    case Text(v) =>
      match v
      case Obj(o) => RouteEnvelope(reg, frame, flag, sender, Stamp(o, sender, now), open)
      // An array is stamped but matches no branch; stamping a primitive or null throws.
      case _ => Effect([], frame, flag)
  }

  /** The three branches on a stamped envelope `d`. They test distinct `type`
      values, so at most one applies. */
  function RouteEnvelope(reg: Clients, frame: Option<seq<byte>>, flag: Option<Value>,
                         sender: ClientType, d: Object, open: set<ConnId>): Effect
    requires "timestamp" in d
  {
    if sender == Some(Camera) && TypeIs(d, "frame_metadata") then
      // The send to the AI does not check that its socket is open.
      var toAi := if reg.ai.Some? then [Send(reg.ai.value, JsonText(d))] else [];
      Effect(BroadcastSends(reg.ui, open, JsonText(d)) + toAi, frame, flag)
    else if sender == Some(Ai) && TypeIs(d, "detection") then
      if !LogsDetectionCount(d) then
        // Logging `data.detections.length` throws before any send.
        Effect([], frame, flag)
      else
        var toRobot := if Truthy(flag) then SendIfOpen(reg.robot, open, JsonText(AiDetection(d))) else [];
        Effect(BroadcastSends(reg.ui, open, JsonText(d)) + toRobot, frame, flag)
    else if TypeIs(d, "ai_control") then
      var enabled := Get(d, "enabled");
      Effect(SendIfOpen(reg.ai, open, JsonText(ControlStatus(enabled))), frame, enabled)
    else
      Effect([], frame, flag)
  }

  lemma SendIfOpenInbox(slot: Option<ConnId>, open: set<ConnId>, m: Msg, x: ConnId)
    ensures Inbox(SendIfOpen(slot, open, m), x) == if slot == Some(x) && x in open then [m] else []
  {
    if slot.Some? && slot.value in open {
      InboxOne(Send(slot.value, m), x);
    }
  }

  /** A binary frame from the camera becomes the cached frame and reaches every
      open UI socket once, and the AI socket once if it is set and open, unchanged. */
  lemma CameraFrameRouting(reg: Clients, frame: Option<seq<byte>>, flag: Option<Value>,
                           b: seq<byte>, now: string, open: set<ConnId>, x: ConnId)
    requires NoDup(reg.ui)
    ensures var e := Route(reg, frame, flag, Some(Camera), Binary(b), now, open);
      && e.latestFrame == Some(b)
      && e.aiControl == flag
      && Inbox(e.sends, x) == (if x in reg.ui && x in open then [Frame(b)] else [])
                              + (if reg.ai == Some(x) && x in open then [Frame(b)] else [])
  {
    InboxConcat(BroadcastSends(reg.ui, open, Frame(b)), SendIfOpen(reg.ai, open, Frame(b)), x);
    BroadcastInbox(reg.ui, open, Frame(b), x);
    SendIfOpenInbox(reg.ai, open, Frame(b), x);
  }

  /** The envelopes the router acts on: camera `frame_metadata`, AI `detection`
      carrying detections, and `ai_control` from anyone. */
  predicate Handled(sender: ClientType, o: Object)
  {
    || (sender == Some(Camera) && TypeIs(o, "frame_metadata"))
    || (sender == Some(Ai) && TypeIs(o, "detection") && LogsDetectionCount(o))
    || TypeIs(o, "ai_control")
  }

  lemma StampKeepsType(o: Object, sender: ClientType, now: string)
    ensures var d := Stamp(o, sender, now);
      Get(d, "type") == Get(o, "type") && Get(d, "detections") == Get(o, "detections")
      && Get(d, "enabled") == Get(o, "enabled")
  {
  }

  /** Malformed text, binary from anyone but the camera, JSON that is not an
      object, and envelopes no branch handles send nothing and change nothing. */
  lemma IgnoredInputChangesNothing(reg: Clients, frame: Option<seq<byte>>, flag: Option<Value>,
                                   sender: ClientType, p: Payload, now: string, open: set<ConnId>)
    requires || p.Malformed?
             || (p.Binary? && sender != Some(Camera))
             || (p.Text? && !(p.value.Obj? && Handled(sender, p.value.fields)))
    ensures Route(reg, frame, flag, sender, p, now, open) == Effect([], frame, flag)
  {
    if p.Text? && p.value.Obj? {
      StampKeepsType(p.value.fields, sender, now);
    }
  }

  /** A `robot_command` envelope, the one the UI sends for the arm, is not relayed to anyone. */
  lemma RobotCommandIsDropped(reg: Clients, frame: Option<seq<byte>>, flag: Option<Value>,
                              sender: ClientType, o: Object, now: string, open: set<ConnId>)
    requires TypeIs(o, "robot_command")
    ensures Route(reg, frame, flag, sender, Text(Obj(o)), now, open) == Effect([], frame, flag)
  {
    IgnoredInputChangesNothing(reg, frame, flag, sender, Text(Obj(o)), now, open);
  }

  /** Camera `frame_metadata` is stamped, broadcast to the open UI sockets, and
      sent to the AI socket whenever the slot is set, open or not. */
  lemma FrameMetadataRouting(reg: Clients, frame: Option<seq<byte>>, flag: Option<Value>,
                             o: Object, now: string, open: set<ConnId>, x: ConnId)
    requires NoDup(reg.ui) && TypeIs(o, "frame_metadata")
    ensures var d := Stamp(o, Some(Camera), now);
      var e := Route(reg, frame, flag, Some(Camera), Text(Obj(o)), now, open);
      && e.latestFrame == frame
      && e.aiControl == flag
      && Inbox(e.sends, x) == (if x in reg.ui && x in open then [JsonText(d)] else [])
                              + (if reg.ai == Some(x) then [JsonText(d)] else [])
  {
    var d := Stamp(o, Some(Camera), now);
    StampKeepsType(o, Some(Camera), now);
    var toAi := if reg.ai.Some? then [Send(reg.ai.value, JsonText(d))] else [];
    InboxConcat(BroadcastSends(reg.ui, open, JsonText(d)), toAi, x);
    BroadcastInbox(reg.ui, open, JsonText(d), x);
    if reg.ai.Some? {
      InboxOne(Send(reg.ai.value, JsonText(d)), x);
    }
  }

  /** An AI `detection` envelope: when its detection count cannot be logged
      nothing is sent; otherwise
      it is broadcast to the open UI sockets, and the robot gets the re-shaped
      envelope exactly when the flag is truthy and the robot socket is set and open. */
  lemma DetectionRouting(reg: Clients, frame: Option<seq<byte>>, flag: Option<Value>,
                         o: Object, now: string, open: set<ConnId>, x: ConnId)
    requires NoDup(reg.ui) && TypeIs(o, "detection")
    ensures var d := Stamp(o, Some(Ai), now);
      var e := Route(reg, frame, flag, Some(Ai), Text(Obj(o)), now, open);
      && e.latestFrame == frame
      && e.aiControl == flag
      && (!LogsDetectionCount(o) ==> e.sends == [])
      && (LogsDetectionCount(o) ==>
            Inbox(e.sends, x) == (if x in reg.ui && x in open then [JsonText(d)] else [])
                                 + (if Truthy(flag) && reg.robot == Some(x) && x in open
                                    then [JsonText(AiDetection(d))] else []))
  {
    var d := Stamp(o, Some(Ai), now);
    StampKeepsType(o, Some(Ai), now);
    assert TypeIs(d, "detection") && LogsDetectionCount(d) == LogsDetectionCount(o);
    var e := Route(reg, frame, flag, Some(Ai), Text(Obj(o)), now, open);
    assert e == RouteEnvelope(reg, frame, flag, Some(Ai), d, open);
    if LogsDetectionCount(o) {
      var toRobot := if Truthy(flag) then SendIfOpen(reg.robot, open, JsonText(AiDetection(d))) else [];
      assert e.sends == BroadcastSends(reg.ui, open, JsonText(d)) + toRobot;
      InboxConcat(BroadcastSends(reg.ui, open, JsonText(d)), toRobot, x);
      BroadcastInbox(reg.ui, open, JsonText(d), x);
      SendIfOpenInbox(reg.robot, open, JsonText(AiDetection(d)), x);
    }
  }

  /** A detection whose `detections` is an object with a `length` that throws
      when converted to a string is dropped whole: logging the count throws, so
      no UI socket and not the robot receive it, whatever the flag, and nothing
      else changes. */
  lemma UnloggableCountDropsDetection(reg: Clients, frame: Option<seq<byte>>, flag: Option<Value>,
                                      o: Object, now: string, open: set<ConnId>)
    requires TypeIs(o, "detection") && "detections" in o && o["detections"].Obj?
    requires "length" in o["detections"].fields && ToStringThrows(o["detections"].fields["length"])
    ensures Route(reg, frame, flag, Some(Ai), Text(Obj(o)), now, open) == Effect([], frame, flag)
  {
    StampKeepsType(o, Some(Ai), now);
  }

  /** What the robot socket (never a UI socket) receives for an AI detection:
      one envelope, of type `ai_detection`, holding only the detections and the
      stamped timestamp, when the flag is truthy and the robot is open; otherwise nothing. */
  lemma RobotReceivesOnlyDetections(reg: Clients, frame: Option<seq<byte>>, flag: Option<Value>,
                                    o: Object, now: string, open: set<ConnId>, robot: ConnId)
    requires NoDup(reg.ui) && TypeIs(o, "detection") && LogsDetectionCount(o)
    requires reg.robot == Some(robot) && robot !in reg.ui
    ensures var inbox := Inbox(Route(reg, frame, flag, Some(Ai), Text(Obj(o)), now, open).sends, robot);
      && |inbox| == (if Truthy(flag) && robot in open then 1 else 0)
      && (|inbox| == 1 ==>
            && inbox[0].JsonText?
            && inbox[0].obj.Keys == {"type", "detections", "timestamp"}
            && inbox[0].obj["type"] == Str("ai_detection")
            && inbox[0].obj["detections"] == o["detections"]
            && inbox[0].obj["timestamp"] == (if Truthy(Get(o, "timestamp")) then o["timestamp"] else Str(now)))
  {
    DetectionRouting(reg, frame, flag, o, now, open, robot);
  }

  /** `ai_control` from any sender sets the flag to its `enabled` value (last
      writer wins) and tells the AI socket, if it is set and open, the new value. */
  lemma AiControlRouting(reg: Clients, frame: Option<seq<byte>>, flag: Option<Value>,
                         sender: ClientType, o: Object, now: string, open: set<ConnId>, x: ConnId)
    requires TypeIs(o, "ai_control")
    ensures var e := Route(reg, frame, flag, sender, Text(Obj(o)), now, open);
      && e.aiControl == Get(o, "enabled")
      && e.latestFrame == frame
      && Inbox(e.sends, x) == if reg.ai == Some(x) && x in open
                              then [JsonText(ControlStatus(Get(o, "enabled")))] else []
  {
    StampKeepsType(o, sender, now);
    SendIfOpenInbox(reg.ai, open, JsonText(ControlStatus(Get(o, "enabled"))), x);
  }
}

=== FILE: scenarios.dfy ===
/**
 * Event sequences applied to a fresh relay, each pinning down one end-to-end
 * behaviour of the handlers.
 */
module Scenarios {
  import opened Wrappers
  import opened Json
  import opened Messages
  import opened Router
  import opened Lifecycle
  import opened Hub

  /** A camera connects and sends a frame, then a UI socket connects. */
  method CameraThenViewer(first: seq<byte>) returns (relay: Relay, cam: ConnId, viewer: ConnId)
    ensures fresh(relay) && relay.Valid()
    ensures relay.View() == Registry.Clients(None, Some(cam), [viewer], None)
    ensures cam != viewer && cam in relay.live && relay.live[cam] == Some(Camera)
    ensures Inbox(relay.outbox, viewer) == WelcomeMsgs(Registry.Clients(None, Some(cam), [], None), None, Some(first))
  {
    relay := new Relay();
    cam := relay.OnConnect(Some(Camera), {});
    assert relay.outbox == [] && relay.ui == [] && relay.ai == None;
    relay.OnMessage(cam, Binary(first), "t1", {cam});
    assert relay.outbox == [] && relay.latestFrame == Some(first);
    viewer := relay.OnConnect(Some(Ui), {cam});
    var welcome := WelcomeMsgs(Registry.Clients(None, Some(cam), [], None), None, Some(first));
    assert relay.outbox == SendsTo(viewer, welcome);
    SendsToInbox(viewer, welcome, viewer);
  }

  /** A camera connects and sends a frame, a UI connects, the camera sends a
      second frame: the UI receives the three slot statuses (only the camera
      connected), the cached first frame, then the second frame, byte for byte. */
  method LateUiCatchesUp(first: seq<byte>, second: seq<byte>) returns (inbox: seq<Msg>)
    ensures inbox == [JsonText(ConnectionStatus(Robot, false)),
                      JsonText(ConnectionStatus(Camera, true)),
                      JsonText(ConnectionStatus(Ai, false)),
                      Frame(first),
                      Frame(second)]
  {
    var relay, cam, viewer := CameraThenViewer(first);
    var reg, before := relay.View(), relay.outbox;
    ghost var frame, flag := relay.latestFrame, relay.aiControlEnabled;
    relay.OnMessage(cam, Binary(second), "t2", {cam, viewer});
    ghost var e := Route(reg, frame, flag, Some(Camera), Binary(second), "t2", {cam, viewer});
    assert relay.outbox == before + e.sends;
    InboxConcat(before, e.sends, viewer);
    CameraFrameRouting(reg, frame, flag, second, "t2", {cam, viewer}, viewer);
    assert Inbox(before, viewer) == [JsonText(ConnectionStatus(Robot, false)),
                                     JsonText(ConnectionStatus(Camera, true)),
                                     JsonText(ConnectionStatus(Ai, false)),
                                     Frame(first)];
    inbox := Inbox(relay.outbox, viewer);
  }

  /** A relay with a robot, an AI and one UI socket connected, in that order. */
  method RobotAiAndViewer() returns (relay: Relay, robot: ConnId, ai: ConnId, viewer: ConnId)
    ensures fresh(relay) && relay.Valid()
    ensures relay.View() == Registry.Clients(Some(robot), None, [viewer], Some(ai))
    ensures robot != ai && robot != viewer && ai != viewer
    ensures ai in relay.live && viewer in relay.live && relay.live[viewer] == Some(Ui) && relay.live[ai] == Some(Ai)
    ensures relay.latestFrame == None && relay.aiControlEnabled == Some(Bool(false))
    ensures Inbox(relay.outbox, robot) == []
  {
    relay := new Relay();
    robot := relay.OnConnect(Some(Robot), {});
    ai := relay.OnConnect(Some(Ai), {robot});
    viewer := relay.OnConnect(Some(Ui), {robot, ai});
    var welcome := WelcomeMsgs(Registry.Clients(Some(robot), None, [], Some(ai)), None, None);
    assert relay.outbox == SendsTo(viewer, welcome);
    SendsToInbox(viewer, welcome, robot);
  }

  /** With a robot, an AI and a UI connected, the UI sends `ai_control` with `enabled`. */
  method ViewerSetsControl(enabled: bool) returns (relay: Relay, robot: ConnId, ai: ConnId, viewer: ConnId)
    ensures fresh(relay) && relay.Valid()
    ensures relay.View() == Registry.Clients(Some(robot), None, [viewer], Some(ai))
    ensures robot != ai && robot != viewer && ai != viewer
    ensures ai in relay.live && relay.live[ai] == Some(Ai)
    ensures relay.latestFrame == None && relay.aiControlEnabled == Some(Bool(enabled))
    ensures Inbox(relay.outbox, robot) == []
  {
    relay, robot, ai, viewer := RobotAiAndViewer();
    var reg, start := relay.View(), relay.outbox;
    var open := {robot, ai, viewer};
    var control := map["type" := Str("ai_control"), "enabled" := Bool(enabled)];
    relay.OnMessage(viewer, Text(Obj(control)), "t1", open);
    ghost var e := Route(reg, None, Some(Bool(false)), Some(Ui), Text(Obj(control)), "t1", open);
    assert relay.outbox == start + e.sends;
    InboxConcat(start, e.sends, robot);
    AiControlRouting(reg, None, Some(Bool(false)), Some(Ui), control, "t1", open, robot);
  }

  /** A UI sends `ai_control` with `enabled`, then the AI sends a detection that
      carries an extra internal property and no timestamp: with control enabled
      the robot receives exactly one `ai_detection` envelope holding only the
      detections and the arrival time; with control disabled it receives nothing. */
  method AiControlGatesRobot(enabled: bool, detections: seq<Value>) returns (robotInbox: seq<Msg>)
    ensures enabled ==> robotInbox == [JsonText(map["type" := Str("ai_detection"),
                                                    "detections" := Arr(detections),
                                                    "timestamp" := Str("t2")])]
    ensures !enabled ==> robotInbox == []
  {
    var relay, robot, ai, viewer := ViewerSetsControl(enabled);
    var reg, before := relay.View(), relay.outbox;
    var open := {robot, ai, viewer};
    var detection := map["type" := Str("detection"), "detections" := Arr(detections), "model" := Str("internal")];
    relay.OnMessage(ai, Text(Obj(detection)), "t2", open);
    ghost var e := Route(reg, None, Some(Bool(enabled)), Some(Ai), Text(Obj(detection)), "t2", open);
    assert relay.outbox == before + e.sends;
    ghost var d := Stamp(detection, Some(Ai), "t2");
    assert "timestamp" !in detection && LogsDetectionCount(detection);
    assert d["timestamp"] == Str("t2") && d["detections"] == Arr(detections);
    DetectionRouting(reg, None, Some(Bool(enabled)), detection, "t2", open, robot);
    assert Inbox(e.sends, robot) == if enabled then [JsonText(AiDetection(d))] else [];
    InboxConcat(before, e.sends, robot);
    assert AiDetection(d) == map["type" := Str("ai_detection"), "detections" := Arr(detections), "timestamp" := Str("t2")];
    robotInbox := Inbox(relay.outbox, robot);
  }

  /** A camera is replaced by a second camera socket, then the close of the
      first one arrives: the camera slot is left empty although the second
      socket is still connected. */
  method StaleCameraCloseEmptiesSlot() returns (slot: Option<ConnId>, replacementLive: bool)
    ensures slot == None && replacementLive
  {
    var relay := new Relay();
    var first := relay.OnConnect(Some(Camera), {});
    var second := relay.OnConnect(Some(Camera), {first});
    assert relay.camera == Some(second);
    relay.OnClose(first, {second});
    slot := relay.camera;
    replacementLive := second in relay.live;
  }
}

=== FILE: supervisor.dfy ===
/**
 * The supervision of the inference worker process: when it is started and
 * whether it is restarted after it exits.
 */
module Supervisor {
  import opened Wrappers

  /** The delay before a crashed worker is started again. */
  const RestartDelayMs: nat := 5000

  /** The decision on the worker's `close` event with exit `code` (None: the
      process was ended by a signal and the code is null): a restart after
      `RestartDelayMs` unless the code is exactly 0. */
  function RestartAfter(code: Option<int>): (delay: Option<nat>)
    ensures delay.Some? <==> code != Some(0)
    ensures delay.Some? ==> delay.value == RestartDelayMs
  {
    if code == Some(0) then None else Some(RestartDelayMs)
  }

  /** The `aiProcess` handle: whether a worker process is currently held. */
  class Worker {
    var running: bool

    constructor ()
      ensures !running
    {
      running := false;
    }

    /** `startAIProcess`: when the script is missing nothing is spawned and the
        handle is left as it was; otherwise a process is spawned and held. */
    method Start(scriptExists: bool)
      modifies this
      ensures running == (scriptExists || old(running))
    {
      if !scriptExists {
        return;
      }
      running := true;
    }

    /** The `close` handler: the handle is dropped and a restart is scheduled,
        after the returned delay, unless the exit code is 0. */
    method OnExit(code: Option<int>) returns (restartAfterMs: Option<nat>)
      modifies this
      ensures !running
      ensures restartAfterMs == RestartAfter(code)
    {
      running := false;
      if code != Some(0) {
        restartAfterMs := Some(RestartDelayMs);
      } else {
        restartAfterMs := None;
      }
    }
  }
}

=== FILE: wrappers.dfy ===
/** The optional value used for JavaScript's `null`/`undefined` slots and property reads. */
module Wrappers {

  datatype Option<+T> = None | Some(value: T)
}
